=== FILE: README.md ===
# Horizontal scrollbar: view model and interaction rules

A Dafny model of the horizontal scrollbar of the js-gantt chart
(`src/net/meisen/ui/gantt/svg/HorizontalScrollbar.js`). The scrollbar shows a
window `position .. position + size` of a logical range `0 .. total` as a marker
on a pixel track between two arrow buttons. The model covers the view triple and
its normalisation in `setView`, stepping with `move`, the pixel/coordinate
conversions, `setWidth`, `getScrollareaWidth`, and the three gestures: arrow
clicks, track clicks and the marker drag.

Every operation is a pure function of a `Bar` (configuration, view, pixel
width, CSS visibility, live drag anchors). Operations that can repaint or notify
return an `Outcome`: the new `Bar` and the list of effects. The marker press and
the release only bind or unbind listeners, so they return the new `Bar` alone. `Repainted` stands for the visibility and marker attribute
writes of a committed `setView`. `ViewChanged(position, size)` is a `viewchange`
event with its payload. Coordinates are Dafny `real`s, so the conversion
identities hold exactly.

Modules, in dependency order:

- `Views` (views.dfy): numeric arguments (`Arg`, where `Omitted` is
  JavaScript's `undefined`/`null`), the triple, its validity, and `Normalize`.
- `Scrollbar` (scrollbar.dfy): the prototype's state and its methods.
- `Gestures` (gestures.dfy): the arrow, track and drag handlers.
- `Properties` (properties.dfy): lemmas that relate several calls.
- `Sessions` (sessions.dfy): arbitrary sequences of calls and events, and the
  invariant they keep.
- `Scenarios` (scenarios.dfy): concrete call sequences.

The drag is modelled as the source wires it. Each press on the marker binds a
fresh pair of window listeners with its own anchor. A release anywhere unbinds
every pair. `Bar.drags` therefore holds one anchor per live session, and `[]`
is the idle state. In ordinary use there is at most one session, and
`Properties.SingleSession` shows that a pointer move then runs exactly one
handler. A pointer move leaves every anchor at the pointer, because a zero delta
means the anchor was already there.

The default page step is `size - 1`, so a window narrower than one unit gets a
negative default step, and a default `move` to the right goes left
(`Scenarios.PageStepBelowUnitSize`). This is what the code does. The model keeps
it.

## Model

| member | source | states |
|---|---|---|
| Views.Normalize | src/net/meisen/ui/gantt/svg/HorizontalScrollbar.js:150-166 | The committed triple is valid whatever is requested. Each value within its bounds is kept. A negative total or size floors to 0. A size above total is capped at total. A position outside `[0, total - size]` goes to the nearer end. |
| Views.NormalizeKeepsValid | src/net/meisen/ui/gantt/svg/HorizontalScrollbar.js:156-166 | A request that is already a valid triple is committed unchanged. |
| Views.NormalizeIdempotent | src/net/meisen/ui/gantt/svg/HorizontalScrollbar.js:151-166 | Re-normalising a committed triple with every argument omitted changes nothing. |
| Views.Clamp | src/net/meisen/ui/gantt/svg/HorizontalScrollbar.js:144-145 | The clamp `move` applies: `max` then `min` never exceeds `hi` and, when `lo <= hi`, lands in `[lo, hi]`. It keeps values inside and sends values outside to the nearer end. |
| Scrollbar.Init | src/net/meisen/ui/gantt/svg/HorizontalScrollbar.js:72-91 | A fresh bar reports view `(0,0,0)` and width 0, has untouched CSS and the given configuration, and has no drag session. It satisfies the invariant. |
| Scrollbar.SetView | src/net/meisen/ui/gantt/svg/HorizontalScrollbar.js:150-195 | The new view is the normalised request. Nothing happens iff there is no force and the triple is unchanged. Otherwise the effects are `Repainted`, followed by exactly one `viewchange` carrying the new position and size iff the triple changed (even under force). Visibility becomes "visible iff scrollable". Width, config and drags are untouched. The invariant is preserved. |
| Scrollbar.Move | src/net/meisen/ui/gantt/svg/HorizontalScrollbar.js:140-148 | The result is always valid. On a valid view, size and total are kept and the position lies in `[0, total - size]`. It equals the target `position ± steps` (default `size - 1`) when the target is in range, and the nearer end otherwise. Its effects follow the `setView` rule: none if the view is unchanged, otherwise `Repainted` then one `viewchange` carrying the new position and size. |
| Scrollbar.IsScrollable | src/net/meisen/ui/gantt/svg/HorizontalScrollbar.js:197-199 | On a valid view, the bar is scrollable iff there is room to move the window, i.e. `total - size > 0`. |
| Scrollbar.GetView | src/net/meisen/ui/gantt/svg/HorizontalScrollbar.js:231-233 | On a reachable bar the reported view is valid, and once styled the bar is visible iff that view is scrollable. |
| Scrollbar.GetWidth | src/net/meisen/ui/gantt/svg/HorizontalScrollbar.js:235-237 | The track width is what the reported width leaves after both arrows and their gaps, or 0. |
| Scrollbar.TrackWidth | src/net/meisen/ui/gantt/svg/HorizontalScrollbar.js:239-242 | The track width is never negative. It is at least `width - 2*(arrowSize+1)` and equal to it or to 0. |
| Scrollbar.PixelToCoord | src/net/meisen/ui/gantt/svg/HorizontalScrollbar.js:201-203 | `px` pixels convert to the coordinate length whose share of `total` is `px`'s share of the track. An empty range gives 0. |
| Scrollbar.CoordToPixel | src/net/meisen/ui/gantt/svg/HorizontalScrollbar.js:205-207 | The result is 0 when `total == 0`. Otherwise the pixel's share of the track equals the coordinate's share of `total`. |
| Scrollbar.SetWidth | src/net/meisen/ui/gantt/svg/HorizontalScrollbar.js:209-229 | With an unchanged width and no force it is a no-op. Otherwise it stores the width and repaints through a forced `setView`. On a valid view that keeps the triple and emits no `viewchange`. |
| Gestures.ArrowClick | src/net/meisen/ui/gantt/svg/HorizontalScrollbar.js:120-129 | An arrow moves by exactly the configured step when that stays in range, and otherwise stops at the nearer end of the range. Size and total are kept. Its effects follow the `setView` rule: none if the view is unchanged, otherwise `Repainted` then one `viewchange` carrying the new position and size. |
| Gestures.BelowInPixels | src/net/meisen/ui/gantt/svg/HorizontalScrollbar.js:201-207 | On a non-empty range, a pixel offset converts to a coordinate below `c` iff it lies before `c`'s pixel. |
| Gestures.ClickDirection | src/net/meisen/ui/gantt/svg/HorizontalScrollbar.js:106-108 | A track click pages left iff it lands before the marker's leading edge. That is the same as the clicked coordinate being below `position`. On an empty range it pages left iff `position > 0`. |
| Gestures.TrackClick | src/net/meisen/ui/gantt/svg/HorizontalScrollbar.js:106-111 | A track click pages by `size - 1` towards the click when that stays in range, and otherwise stops at the nearer end of the range. It never moves away from the click when `size >= 1`. Its effects follow the `setView` rule: none if the view is unchanged, otherwise `Repainted` then one `viewchange` carrying the new position and size. |
| Gestures.MouseDown | src/net/meisen/ui/gantt/svg/HorizontalScrollbar.js:33-38 | A press opens one more session anchored at the pointer. Earlier sessions and the view are untouched. |
| Gestures.DragHandler | src/net/meisen/ui/gantt/svg/HorizontalScrollbar.js:40-51 | A zero delta changes nothing. A non-zero delta moves the position by the coordinate length of the signed pixel delta, clamped to the range. The direction is left iff the delta is negative. Its effects follow the `setView` rule: none if the view is unchanged, otherwise `Repainted` then one `viewchange` carrying the new position and size. |
| Gestures.Dispatch | src/net/meisen/ui/gantt/svg/HorizontalScrollbar.js:40-57 | A pointer move delivered to every live session keeps size, total, width and the invariant. When every anchor is at the pointer it changes nothing. |
| Gestures.MouseMove | src/net/meisen/ui/gantt/svg/HorizontalScrollbar.js:40-51 | After a pointer move every session is anchored at the pointer. With no session, or when every delta is zero, nothing changes. The invariant is preserved. |
| Gestures.MouseUp | src/net/meisen/ui/gantt/svg/HorizontalScrollbar.js:52-55 | A release leaves no session bound and the view untouched. |
| Properties.PixelRoundTrip | src/net/meisen/ui/gantt/svg/HorizontalScrollbar.js:201-207 | `coordToPixel(pixelToCoord(px)) == px` on a non-empty range and track. |
| Properties.CoordRoundTrip | src/net/meisen/ui/gantt/svg/HorizontalScrollbar.js:201-207 | `pixelToCoord(coordToPixel(c)) == c` on a non-empty range and track. |
| Properties.TotalSpansTrack | src/net/meisen/ui/gantt/svg/HorizontalScrollbar.js:205-207 | The whole range maps to the whole track width. |
| Properties.SetViewTwice | src/net/meisen/ui/gantt/svg/HorizontalScrollbar.js:168-174 | Repeating a `setView` call without force is a no-op, so the two calls together emit at most one `viewchange`. |
| Properties.StuckWhenNotScrollable | src/net/meisen/ui/gantt/svg/HorizontalScrollbar.js:143-147 | When `size == total`, no move changes anything or notifies. |
| Properties.LeftThenRight | src/net/meisen/ui/gantt/svg/HorizontalScrollbar.js:143-145 | `move(left, k)` then `move(right, k)` restores the view when no clamp was hit. |
| Properties.RightThenLeft | src/net/meisen/ui/gantt/svg/HorizontalScrollbar.js:143-145 | `move(right, k)` then `move(left, k)` restores the view when no clamp was hit. |
| Properties.ArrowsUndoEachOther | src/net/meisen/ui/gantt/svg/HorizontalScrollbar.js:120-129 | A left-arrow click followed by a right-arrow click restores the view when the first step did not reach an end. |
| Properties.SetViewThenGet | src/net/meisen/ui/gantt/svg/HorizontalScrollbar.js:150-173 | After `setView(p, s, t)`, `getView()` reports the normalised request. |
| Properties.MoveThenGet | src/net/meisen/ui/gantt/svg/HorizontalScrollbar.js:140-148 | After a `move` whose target is in range, `getView()` reports the target position with size and total kept. |
| Properties.SetWidthTwice | src/net/meisen/ui/gantt/svg/HorizontalScrollbar.js:209-218 | Setting the same width again without force changes nothing. |
| Properties.SetWidthThenGet | src/net/meisen/ui/gantt/svg/HorizontalScrollbar.js:231-237 | After `setWidth(w)`, `getWidth()` is `w`. `getView()` is unchanged on a valid view. |
| Properties.PixelShift | src/net/meisen/ui/gantt/svg/HorizontalScrollbar.js:201-207 | Shifting the position by `pixelToCoord(delta)` shifts its pixel by exactly `delta`. |
| Properties.MarkerFollowsPointer | src/net/meisen/ui/gantt/svg/HorizontalScrollbar.js:40-51 | During a drag, the marker's leading edge moves by exactly the pointer's pixel delta unless an end of the range was hit. |
| Properties.SingleSession | src/net/meisen/ui/gantt/svg/HorizontalScrollbar.js:40-51 | With one session, a pointer move runs that session's handler and then re-anchors it at the pointer. |
| Properties.DispatchInOrder | src/net/meisen/ui/gantt/svg/HorizontalScrollbar.js:40-57 | A pointer move reaches the sessions in bind order. The last-bound session's handler runs on the bar the earlier handlers left, and its effects come last. |
| Properties.ReleasedIgnoresMoves | src/net/meisen/ui/gantt/svg/HorizontalScrollbar.js:52-55 | After a release, pointer moves change nothing. |
| Sessions.Step | src/net/meisen/ui/gantt/svg/HorizontalScrollbar.js:93-229 | Every host call and user event preserves the invariant and the configuration. |
| Sessions.RunKeepsInv | src/net/meisen/ui/gantt/svg/HorizontalScrollbar.js:150-199 | After any sequence of calls and events, the view is valid and visibility tracks `isScrollable`. |
| Sessions.Reachable | src/net/meisen/ui/gantt/svg/HorizontalScrollbar.js:79-84 | Every scrollbar reachable from the initial one keeps the invariant. |
| Sessions.ReleaseEndsAllSessions | src/net/meisen/ui/gantt/svg/HorizontalScrollbar.js:52-58 | After any history ending in a release, no drag listener is bound. |
| Scenarios.FirstSetViewNotifies | src/net/meisen/ui/gantt/svg/HorizontalScrollbar.js:168-194 | `setView(0,10,100)` on a fresh bar repaints, emits `viewchange {0, 10}`, and shows the bar. |
| Scenarios.SetViewClamps | src/net/meisen/ui/gantt/svg/HorizontalScrollbar.js:156-166 | Concrete requests: `(-5,10,100)` gives `(0,10,100)`. `(95,10,100)` gives `(90,10,100)`. `(0,150,100)` gives `(0,100,100)`. `(3,4,-1)` gives `(0,0,0)`. |
| Scenarios.PagingRight | src/net/meisen/ui/gantt/svg/HorizontalScrollbar.js:140-147 | From `(0,10,100)`, a default move right gives 9, and then a move right by 5 gives 14. |
| Scenarios.MoveStopsAtEnd | src/net/meisen/ui/gantt/svg/HorizontalScrollbar.js:143-147 | A bar requested at `(95,10,100)` sits at 90. A move right by 20 keeps it at 90 and emits nothing. |
| Scenarios.MoveClampsToEnd | src/net/meisen/ui/gantt/svg/HorizontalScrollbar.js:143-147 | From `(80,10,100)`, a move right by 20 stops at 90. |
| Scenarios.ArrowStopsAtStart | src/net/meisen/ui/gantt/svg/HorizontalScrollbar.js:121-123 | At position 0.5 with step 1, a left-arrow click stops at 0 and emits `viewchange {0, 10}`. A second click does nothing. |
| Scenarios.PageStepBelowUnitSize | src/net/meisen/ui/gantt/svg/HorizontalScrollbar.js:141-143 | With `size = 0.5`, a default move right goes from 50 to 49.5. |
| Scenarios.VisibilityFollowsScrollable | src/net/meisen/ui/gantt/svg/HorizontalScrollbar.js:176-180 | A full window hides the bar. Growing the total shows it. |
| Scenarios.ResizeRepaintsOnly | src/net/meisen/ui/gantt/svg/HorizontalScrollbar.js:209-228 | A 230-pixel bar has a 200-pixel track. Resizing or forcing repaints without `viewchange`. The same width without force does nothing. |
| Scenarios.WideFacts | src/net/meisen/ui/gantt/svg/HorizontalScrollbar.js:209-242 | The 230-pixel bar set to `(p,10,100)` has that view, no session and a 200-pixel track. |
| Scenarios.HalfUnitPerPixel | src/net/meisen/ui/gantt/svg/HorizontalScrollbar.js:201-203 | On a 200-pixel track over a range of 100, a pixel is half a unit. |
| Scenarios.DragScenario | src/net/meisen/ui/gantt/svg/HorizontalScrollbar.js:40-55 | With anchor 100 and moves to 105 then 95, the position goes 20 to 22.5 to 17.5, and the anchors go 105 then 95. After the release a move does nothing. |
| Scenarios.TrackClickScenario | src/net/meisen/ui/gantt/svg/HorizontalScrollbar.js:106-111 | From position 50, a click before the marker pages to 41, and a click after it pages to 59. |

## Left out

- Rendering: `createArrow`, the element building in `init`, `setPosition`, and the marker, scrollarea and arrow attribute writes. These go through a DOM library. A committed `setView` shows up only as the `Repainted` effect and the `visibility` field.
- Marker pixel geometry (`coordToPixel(size - 1)` as the marker width, lines 182-189): it is presentation with no stated contract.
- Configuration merging (`$.extend` at line 96): the model takes the resolved `Config(arrowSize, step)`, with `DefaultConfig` holding the defaults 14 and 1.
- `on`/`off` and the window `bind`/`unbind` calls: they belong to a foreign event bus. Bound listeners are the anchors in `Bar.drags`, and emitted events are `ViewChanged` effects.
- Whether the browser delivers pointer events to a hidden bar: this is decided by CSS outside the code, so gestures are modelled as delivered.
- Floating point: coordinates are exact reals, so rounding is not modelled, and the `isNaN` guard at line 185 is dropped: the value it guards is never read, since lines 187-188 go through `coordToPixel`.
- Aliasing of the view object: `getView` (line 232) returns the live `view` object, and before the first commit that object is the prototype's own (lines 80-84). A host write through it would bypass `setView` and, before the first commit, reach every fresh instance. `GetView` returns a value, so such writes are not modelled.
- Dynamic typing: arguments are numbers or omitted, and `force` is a boolean. Non-numeric arguments and truthy non-booleans are not modelled.
- Scrollbar.PixelToCoord: requires a non-zero track width. The source divides by the track width unguarded (line 202), which yields NaN or Infinity in JavaScript, so the model leaves that case undefined.
- Gestures.ClickDirection: requires a non-zero track width, because it converts the click with `pixelToCoord`.
- Gestures.TrackClick: requires a non-zero track width, for the same reason.
- Gestures.DragHandler: requires a non-zero track width whenever the delta is non-zero, for the same reason.
- Gestures.Dispatch: requires a non-zero track width unless every delta is zero, for the same reason.
- Properties.DispatchInOrder: is stated for a non-zero track width only, for the same reason.
- Gestures.MouseMove: requires a non-zero track width unless every delta is zero, for the same reason.
- Sessions.Run: stops with `Undefined` at the first input whose pixel conversion would divide by a zero track width.

=== FILE: gestures.dfy ===
/**
 * The three gesture sources of the scrollbar, all funnelled through `move`:
 * the arrow buttons, a click on the track, and the marker drag
 * (src/net/meisen/ui/gantt/svg/HorizontalScrollbar.js:30-59, 106-128).
 *
 * A marker press binds a fresh pair of window listeners with their own anchor;
 * a release anywhere unbinds every pair. The live sessions are the anchors in
 * `Bar.drags`, oldest first, and a pointer move is delivered to each of them
 * in that order.
 */
module Gestures {
  import opened Views
  import opened Scrollbar

  /**
   * An arrow button click: one configured step in the arrow's direction,
   * stopping at the nearer end of the range when the step would leave it, and
   * notifying exactly when the view moved.
   */
  function ArrowClick(b: Bar, dir: Direction): (r: Outcome)
    ensures var t := b.view.position + Signed(dir, b.cfg.step);
      Valid(b.view) ==>
        && (0.0 <= t <= b.view.total - b.view.size ==> r.bar.view.position == t)
        && (t < 0.0 ==> r.bar.view.position == 0.0)
        && (b.view.total - b.view.size < t ==> r.bar.view.position == b.view.total - b.view.size)
    ensures Valid(b.view) ==> r.bar.view.size == b.view.size && r.bar.view.total == b.view.total
    ensures Reports(b.view, r, false)
    ensures r.bar.cfg == b.cfg && r.bar.width == b.width && r.bar.drags == b.drags
    ensures Inv(b) ==> Inv(r.bar)
  {
    Move(b, dir, Given(b.cfg.step))
  }

  /**
   * On a non-empty range, a pixel offset into the track converts to a
   * coordinate below `coord` exactly when it lies before `coord`'s pixel.
   */
  lemma BelowInPixels(b: Bar, px: real, coord: real)
    requires TrackWidth(b) > 0.0 && 0.0 < b.view.total
    ensures PixelToCoord(b, px) < coord <==> px < CoordToPixel(b, coord)
  {
  }

  /**
   * The direction a track click pages in: left exactly when the click lands
   * before the marker's leading edge, i.e. when the clicked coordinate is below
   * `position`. On an empty range every coordinate is 0.
   */
  function ClickDirection(b: Bar, offsetX: real): (d: Direction)
    requires TrackWidth(b) > 0.0
    ensures 0.0 < b.view.total ==>
      (d == Left <==> offsetX < Offset(b.cfg) + CoordToPixel(b, b.view.position))
    ensures b.view.total == 0.0 ==> (d == Left <==> 0.0 < b.view.position)
  {
    var px := offsetX - Offset(b.cfg);
    var d := if PixelToCoord(b, px) < b.view.position then Left else Right;
    if 0.0 < b.view.total then BelowInPixels(b, px, b.view.position); d else d
  }

  /**
   * A click on the track: one page (`size - 1`) towards the click, never a
   * jump to the clicked point.
   */
  function TrackClick(b: Bar, offsetX: real): (r: Outcome)
    requires TrackWidth(b) > 0.0
    ensures var d := ClickDirection(b, offsetX);
      Valid(b.view) && 1.0 <= b.view.size ==>
        && (d == Left ==> r.bar.view.position <= b.view.position)
        && (d == Right ==> b.view.position <= r.bar.view.position)
    ensures var t := b.view.position + Signed(ClickDirection(b, offsetX), b.view.size - 1.0);
      Valid(b.view) ==>
        && (0.0 <= t <= b.view.total - b.view.size ==> r.bar.view.position == t)
        && (t < 0.0 ==> r.bar.view.position == 0.0)
        && (b.view.total - b.view.size < t ==> r.bar.view.position == b.view.total - b.view.size)
    ensures Valid(b.view) ==> r.bar.view.size == b.view.size && r.bar.view.total == b.view.total
    ensures r.bar.cfg == b.cfg && r.bar.width == b.width && r.bar.drags == b.drags
    ensures Reports(b.view, r, false)
    ensures Inv(b) ==> Inv(r.bar)
  {
    Move(b, ClickDirection(b, offsetX), Omitted)
  }

  /** The scrollbar has no drag session in progress. */
  predicate Idle(b: Bar) {
    b.drags == []
  }

  /** A press on the marker opens one more session anchored at the pointer. */
  function MouseDown(b: Bar, pageX: real): (r: Bar)
    ensures |r.drags| == |b.drags| + 1 && r.drags[|b.drags|] == pageX
    ensures r.drags[..|b.drags|] == b.drags
    ensures r.view == b.view && r.width == b.width && r.cfg == b.cfg && r.visibility == b.visibility
  {
    b.(drags := b.drags + [pageX])
  }

  function Abs(x: real): (r: real)
    ensures 0.0 <= r && (r == x || r == -x)
  {
    if x < 0.0 then -x else x
  }

  /**
   * One session's move handler: a zero delta is ignored; otherwise the view
   * moves by the coordinate length of the pointer's signed pixel delta,
   * clamped to the range. The caller re-anchors the session at `pageX`.
   */
  function DragHandler(b: Bar, anchor: real, pageX: real): (r: Outcome)
    requires pageX == anchor || TrackWidth(b) > 0.0
    ensures pageX == anchor ==> r == Outcome(b, [])
    ensures pageX != anchor && Valid(b.view) ==>
      var t := b.view.position + PixelToCoord(b, pageX - anchor);
      && (0.0 <= t <= b.view.total - b.view.size ==> r.bar.view.position == t)
      && (t < 0.0 ==> r.bar.view.position == 0.0)
      && (b.view.total - b.view.size < t ==> r.bar.view.position == b.view.total - b.view.size)
    ensures Valid(b.view) ==> r.bar.view.size == b.view.size && r.bar.view.total == b.view.total
    ensures r.effects == [] <==> r.bar.view == b.view
    ensures r.effects == [] ==> r.bar == b
    ensures r.bar.cfg == b.cfg && r.bar.width == b.width && r.bar.drags == b.drags
    ensures Reports(b.view, r, false)
    ensures Inv(b) ==> Inv(r.bar)
  {
    var diff := pageX - anchor;
    if diff == 0.0 then
      Outcome(b, [])
    else
      var dir := if diff < 0.0 then Left else Right;
      Move(b, dir, Given(PixelToCoord(b, Abs(diff))))
  }

  /** Delivers one pointer move to the sessions anchored at `anchors`, oldest first. */
  function Dispatch(b: Bar, anchors: seq<real>, pageX: real): (r: Outcome)
    requires TrackWidth(b) > 0.0 || forall i :: 0 <= i < |anchors| ==> anchors[i] == pageX
    ensures (forall i :: 0 <= i < |anchors| ==> anchors[i] == pageX) ==> r == Outcome(b, [])
    ensures Valid(b.view) ==> r.bar.view.size == b.view.size && r.bar.view.total == b.view.total
    ensures r.effects == [] ==> r.bar == b
    ensures r.bar.cfg == b.cfg && r.bar.width == b.width && r.bar.drags == b.drags
    ensures Inv(b) ==> Inv(r.bar)
    decreases |anchors|
  {
    if anchors == [] then
      Outcome(b, [])
    else
      var first := DragHandler(b, anchors[0], pageX);
      var rest := Dispatch(first.bar, anchors[1..], pageX);
      Outcome(rest.bar, first.effects + rest.effects)
  }

  /**
   * A pointer move over the window: every live session handles it and is then
   * anchored at the pointer, so each move contributes only its own increment.
   */
  function MouseMove(b: Bar, pageX: real): (r: Outcome)
    requires TrackWidth(b) > 0.0 || forall i :: 0 <= i < |b.drags| ==> b.drags[i] == pageX
    ensures |r.bar.drags| == |b.drags|
    ensures forall i :: 0 <= i < |r.bar.drags| ==> r.bar.drags[i] == pageX
    ensures (forall i :: 0 <= i < |b.drags| ==> b.drags[i] == pageX) ==> r == Outcome(b, [])
    ensures Idle(b) ==> r == Outcome(b, [])
    ensures Valid(b.view) ==> r.bar.view.size == b.view.size && r.bar.view.total == b.view.total
    ensures r.bar.cfg == b.cfg && r.bar.width == b.width
    ensures Inv(b) ==> Inv(r.bar)
  {
    var r := Dispatch(b, b.drags, pageX);
    var anchors := seq(|b.drags|, _ => pageX);
    assert (forall i :: 0 <= i < |b.drags| ==> b.drags[i] == pageX) ==> anchors == b.drags;
    Outcome(r.bar.(drags := anchors), r.effects)
  }

  /** A release anywhere unbinds the listeners of every session. */
  function MouseUp(b: Bar): (r: Bar)
    ensures Idle(r)
    ensures r.view == b.view && r.width == b.width && r.cfg == b.cfg && r.visibility == b.visibility
  {
    b.(drags := [])
  }
}

=== FILE: properties.dfy ===
/**
 * Properties of the scrollbar that relate several calls: the pixel/coordinate
 * round trips, idempotence of `setView` and `setWidth`, the left/right inverse
 * of `move`, and the marker following the pointer during a drag.
 */
module Properties {
  import opened Views
  import opened Scrollbar
  import opened Gestures

  /** Converting pixels to coordinates and back is the identity on a non-empty range. */
  lemma PixelRoundTrip(b: Bar, px: real)
    requires TrackWidth(b) > 0.0 && 0.0 < b.view.total
    ensures CoordToPixel(b, PixelToCoord(b, px)) == px
  {
  }

  /** Converting coordinates to pixels and back is the identity on a non-empty range. */
  lemma CoordRoundTrip(b: Bar, coord: real)
    requires TrackWidth(b) > 0.0 && 0.0 < b.view.total
    ensures PixelToCoord(b, CoordToPixel(b, coord)) == coord
  {
  }

  /** The whole range spans the whole track. */
  lemma TotalSpansTrack(b: Bar)
    requires 0.0 < b.view.total
    ensures CoordToPixel(b, b.view.total) == TrackWidth(b)
  {
  }

  /**
   * Repeating a `setView` call without force is a no-op, so the two calls
   * together notify at most once.
   */
  lemma SetViewTwice(b: Bar, position: Arg, size: Arg, total: Arg, force: bool)
    ensures var first := SetView(b, position, size, total, force);
      SetView(first.bar, position, size, total, false) == Outcome(first.bar, [])
    ensures var first := SetView(b, position, size, total, force);
      var second := SetView(first.bar, position, size, total, false);
      Notifications(first.effects + second.effects) <= 1
  {
  }

  /** A bar that is not scrollable does not move, whatever the direction and step. */
  lemma StuckWhenNotScrollable(b: Bar, dir: Direction, steps: Arg)
    requires Valid(b.view) && !IsScrollable(b.view)
    ensures Move(b, dir, steps) == Outcome(b, [])
  {
  }

  /**
   * A step left followed by the same step right restores the position when
   * neither step reached an end of the range.
   */
  lemma LeftThenRight(b: Bar, k: real)
    requires Valid(b.view)
    requires 0.0 <= b.view.position - k <= b.view.total - b.view.size
    ensures var left := Move(b, Left, Given(k));
      Move(left.bar, Right, Given(k)).bar.view == b.view
  {
  }

  /** Symmetrically, a step right followed by the same step left restores the position. */
  lemma RightThenLeft(b: Bar, k: real)
    requires Valid(b.view)
    requires 0.0 <= b.view.position + k <= b.view.total - b.view.size
    ensures var right := Move(b, Right, Given(k));
      Move(right.bar, Left, Given(k)).bar.view == b.view
  {
  }

  /**
   * A click on the left arrow followed by one on the right arrow restores the
   * view when the first step did not reach an end of the range.
   */
  lemma ArrowsUndoEachOther(b: Bar)
    requires Valid(b.view)
    requires 0.0 <= b.view.position - b.cfg.step <= b.view.total - b.view.size
    ensures ArrowClick(ArrowClick(b, Left).bar, Right).bar.view == b.view
  {
  }

  /** After `setView(p, s, t)`, `getView()` reports the normalised request. */
  lemma SetViewThenGet(b: Bar, position: Arg, size: Arg, total: Arg, force: bool)
    ensures GetView(SetView(b, position, size, total, force).bar) == Normalize(b.view, position, size, total)
  {
  }

  /** After a `move` within the range, `getView()` reports the target with size and total kept. */
  lemma MoveThenGet(b: Bar, dir: Direction, steps: Arg)
    requires Valid(b.view)
    requires 0.0 <= Target(b.view, dir, steps) <= b.view.total - b.view.size
    ensures GetView(Move(b, dir, steps).bar) == b.view.(position := Target(b.view, dir, steps))
  {
  }

  /** Setting the same width again without force changes nothing. */
  lemma SetWidthTwice(b: Bar, width: real, force: bool)
    ensures var first := SetWidth(b, Given(width), force);
      SetWidth(first.bar, Given(width), false) == Outcome(first.bar, [])
  {
  }

  /** After `setWidth(w)`, `getWidth()` reports `w`, and `getView()` is unchanged on a valid view. */
  lemma SetWidthThenGet(b: Bar, width: real, force: bool)
    ensures GetWidth(SetWidth(b, Given(width), force).bar) == width
    ensures Valid(b.view) ==> GetView(SetWidth(b, Given(width), force).bar) == GetView(b)
  {
  }

  /** The arithmetic behind `MarkerFollowsPointer`, on plain numbers. */
  lemma ShiftScales(p: real, d: real, delta: real, w: real, t: real, before: real, after: real)
    requires 0.0 < t
    requires d * w == delta * t
    requires before * t == p * w
    requires after * t == (p + d) * w
    ensures after == before + delta
  {
  }

  /**
   * Shifting the position by the coordinate length of `delta` pixels shifts
   * its pixel by `delta`, for two bars with the same range and track.
   */
  lemma PixelShift(b: Bar, c: Bar, delta: real)
    requires TrackWidth(b) > 0.0 && 0.0 < b.view.total
    requires TrackWidth(c) == TrackWidth(b) && c.view.total == b.view.total
    requires c.view.position == b.view.position + PixelToCoord(b, delta)
    ensures CoordToPixel(c, c.view.position) == CoordToPixel(b, b.view.position) + delta
  {
    ShiftScales(b.view.position, PixelToCoord(b, delta), delta, TrackWidth(b), b.view.total,
      CoordToPixel(b, b.view.position), CoordToPixel(c, c.view.position));
  }

  /**
   * While dragging, the marker's leading edge moves by exactly the pointer's
   * pixel delta unless the view hit an end of the range.
   */
  lemma MarkerFollowsPointer(b: Bar, anchor: real, pageX: real)
    requires Valid(b.view) && TrackWidth(b) > 0.0 && 0.0 < b.view.total
    requires var t := b.view.position + PixelToCoord(b, pageX - anchor);
      0.0 <= t <= b.view.total - b.view.size
    ensures var r := DragHandler(b, anchor, pageX);
      CoordToPixel(r.bar, r.bar.view.position) == CoordToPixel(b, b.view.position) + (pageX - anchor)
  {
    var r := DragHandler(b, anchor, pageX);
    PixelShift(b, r.bar, pageX - anchor);
  }

  /** With one session, a pointer move is exactly that session's handler followed by re-anchoring. */
  lemma SingleSession(b: Bar, pageX: real)
    requires |b.drags| == 1 && (TrackWidth(b) > 0.0 || b.drags[0] == pageX)
    ensures var h := DragHandler(b, b.drags[0], pageX);
      MouseMove(b, pageX) == Outcome(h.bar.(drags := [pageX]), h.effects)
  {
  }

  /**
   * A pointer move reaches the sessions in the order they were bound: adding a
   * session at the end runs its handler last, on the bar the earlier handlers
   * left, and appends its effects.
   */
  lemma {:induction false} DispatchInOrder(b: Bar, anchors: seq<real>, a: real, pageX: real)
    requires TrackWidth(b) > 0.0
    ensures var front := Dispatch(b, anchors, pageX);
      var last := DragHandler(front.bar, a, pageX);
      Dispatch(b, anchors + [a], pageX) == Outcome(last.bar, front.effects + last.effects)
    decreases |anchors|
  {
    if anchors == [] {
      assert anchors + [a] == [a];
      assert [a][1..] == [];
      var h := DragHandler(b, a, pageX);
      assert h.effects + [] == h.effects;
      assert [] + h.effects == h.effects;
    } else {
      assert (anchors + [a])[0] == anchors[0];
      assert (anchors + [a])[1..] == anchors[1..] + [a];
      var first := DragHandler(b, anchors[0], pageX);
      DispatchInOrder(first.bar, anchors[1..], a, pageX);
      var mid := Dispatch(first.bar, anchors[1..], pageX);
      var last := DragHandler(mid.bar, a, pageX);
      assert first.effects + (mid.effects + last.effects) == (first.effects + mid.effects) + last.effects;
    }
  }

  /** After a release, pointer moves reach no handler and change nothing. */
  lemma ReleasedIgnoresMoves(b: Bar, pageX: real)
    ensures MouseMove(MouseUp(b), pageX) == Outcome(MouseUp(b), [])
  {
  }
}

=== FILE: scenarios.dfy ===
/** Concrete call sequences on the scrollbar and the views they produce. */
module Scenarios {
  import opened Views
  import opened Scrollbar
  import opened Gestures
  import Properties

  /** A fresh scrollbar with the default configuration and the view `(position, size, total)`. */
  function Showing(position: real, size: real, total: real): Bar {
    SetView(Init(DefaultConfig), Given(position), Given(size), Given(total), false).bar
  }

  /** The first `setView` on a fresh bar repaints and notifies with the new window. */
  lemma FirstSetViewNotifies()
    ensures SetView(Init(DefaultConfig), Given(0.0), Given(10.0), Given(100.0), false)
      == Outcome(Showing(0.0, 10.0, 100.0), [Repainted, ViewChanged(0.0, 10.0)])
    ensures Showing(0.0, 10.0, 100.0).view == View(0.0, 10.0, 100.0)
    ensures Showing(0.0, 10.0, 100.0).visibility == Visible
  {
  }

  /** Out-of-range requests are pulled back into the range. */
  lemma SetViewClamps()
    ensures Showing(-5.0, 10.0, 100.0).view == View(0.0, 10.0, 100.0)
    ensures Showing(95.0, 10.0, 100.0).view == View(90.0, 10.0, 100.0)
    ensures Showing(0.0, 150.0, 100.0).view == View(0.0, 100.0, 100.0)
    ensures Showing(3.0, 4.0, -1.0).view == View(0.0, 0.0, 0.0)
  {
  }

  /** `(0,10,100)`: a default move right pages by `size - 1 = 9`, then a move by 5 reaches 14. */
  lemma PagingRight()
    ensures var first := Move(Showing(0.0, 10.0, 100.0), Right, Omitted);
      && first.bar.view == View(9.0, 10.0, 100.0)
      && first.effects == [Repainted, ViewChanged(9.0, 10.0)]
      && Move(first.bar, Right, Given(5.0)).bar.view == View(14.0, 10.0, 100.0)
  {
  }

  /** `(95,10,100)` is normalised to `(90,10,100)`; a move right by 20 stays at 90 and notifies nothing. */
  lemma MoveStopsAtEnd()
    ensures var r := Move(Showing(95.0, 10.0, 100.0), Right, Given(20.0));
      r.bar.view.position == 90.0 && r.effects == []
  {
  }

  /** From a valid `(80,10,100)`, a move right by 20 stops at `total - size = 90`. */
  lemma MoveClampsToEnd()
    ensures Move(Showing(80.0, 10.0, 100.0), Right, Given(20.0)).bar.view == View(90.0, 10.0, 100.0)
  {
  }

  /** At position 0.5, a click on the left arrow (step 1) stops at 0; a second click does nothing. */
  lemma ArrowStopsAtStart()
    ensures var first := ArrowClick(Showing(0.5, 10.0, 100.0), Left);
      && first.bar.view == View(0.0, 10.0, 100.0)
      && first.effects == [Repainted, ViewChanged(0.0, 10.0)]
      && ArrowClick(first.bar, Left) == Outcome(first.bar, [])
  {
  }

  /** With a window narrower than one unit the default page step is negative: a move right goes left. */
  lemma PageStepBelowUnitSize()
    ensures Move(Showing(50.0, 0.5, 100.0), Right, Omitted).bar.view.position == 49.5
  {
  }

  /** A bar whose window covers the range is hidden, and becomes visible once it can scroll. */
  lemma VisibilityFollowsScrollable()
    ensures Showing(0.0, 100.0, 100.0).visibility == Hidden
    ensures SetView(Showing(0.0, 100.0, 100.0), Omitted, Omitted, Given(200.0), false).bar.visibility == Visible
  {
  }

  /** A 230-pixel bar with 14-pixel arrows has a 200-pixel track. */
  function Wide(position: real): Bar {
    SetView(SetWidth(Init(DefaultConfig), Given(230.0), false).bar,
      Given(position), Given(10.0), Given(100.0), false).bar
  }

  /** Resizing repaints without a `viewchange`. */
  lemma ResizeRepaintsOnly()
    ensures TrackWidth(Wide(20.0)) == 200.0
    ensures SetWidth(Wide(20.0), Given(330.0), false).effects == [Repainted]
    ensures SetWidth(Wide(20.0), Given(230.0), false).effects == []
    ensures SetWidth(Wide(20.0), Omitted, true).effects == [Repainted]
  {
  }

  /** The 230-pixel bar at `(position,10,100)`, idle and styled. */
  lemma WideFacts(position: real)
    requires 0.0 <= position <= 90.0
    ensures Wide(position).view == View(position, 10.0, 100.0)
    ensures Wide(position).drags == [] && Wide(position).cfg == DefaultConfig
    ensures TrackWidth(Wide(position)) == 200.0
  {
  }

  /** On the 200-pixel track over a range of 100, one pixel is half a unit. */
  lemma HalfUnitPerPixel(b: Bar, px: real)
    requires b.view.total == 100.0 && TrackWidth(b) == 200.0
    ensures PixelToCoord(b, px) == px / 2.0
  {
  }

  /**
   * A drag anchored at 100 with pointer moves to 105 and 95 on a 200-pixel
   * track over a range of 100: right by 2.5, then left by 5, re-anchoring
   * each time; after the release a further move does nothing.
   */
  lemma DragScenario()
    ensures var pressed := MouseDown(Wide(20.0), 100.0);
      var m1 := MouseMove(pressed, 105.0);
      var m2 := MouseMove(m1.bar, 95.0);
      && m1.bar.view.position == 22.5 && m1.bar.drags == [105.0]
      && m1.effects == [Repainted, ViewChanged(22.5, 10.0)]
      && m2.bar.view.position == 17.5 && m2.bar.drags == [95.0]
      && MouseMove(MouseUp(m2.bar), 40.0) == Outcome(MouseUp(m2.bar), [])
  {
    WideFacts(20.0);
    var pressed := MouseDown(Wide(20.0), 100.0);
    assert pressed.drags == [100.0];
    HalfUnitPerPixel(pressed, 5.0);
    Properties.SingleSession(pressed, 105.0);
    var m1 := MouseMove(pressed, 105.0);
    assert m1.bar.view == View(22.5, 10.0, 100.0);
    HalfUnitPerPixel(m1.bar, -10.0);
    Properties.SingleSession(m1.bar, 95.0);
  }

  /** A track click left of the marker pages left; one right of it pages right. */
  lemma TrackClickScenario()
    ensures TrackClick(Wide(50.0), 40.0).bar.view.position == 41.0
    ensures TrackClick(Wide(50.0), 150.0).bar.view.position == 59.0
  {
  }
}

=== FILE: scrollbar.dfy ===
/**
 * The scrollbar object: its configuration, view, pixel width, visibility and
 * live drag sessions, with the prototype operations `setView`, `move`,
 * `isScrollable`, `pixelToCoord`, `coordToPixel`, `setWidth`,
 * `getScrollareaWidth`, `getView` and `getWidth`
 * (src/net/meisen/ui/gantt/svg/HorizontalScrollbar.js:66-242).
 *
 * Everything here is a pure function of the scrollbar. The operations that can
 * repaint or notify (`setView`, `move`, `setWidth`) return an `Outcome`: the
 * new scrollbar and the effects it produced, in order.
 */
module Scrollbar {
  import opened Views

  /** The resolved configuration: the arrow button's side length and the arrow-click step. */
  datatype Config = Config(arrowSize: real, step: real)

  /** The defaults the configuration is merged over. */
  const DefaultConfig := Config(14.0, 1.0)

  datatype Direction = Left | Right

  /** The CSS visibility of the bar: untouched until the first committed view. */
  datatype Visibility = Unstyled | Visible | Hidden

  /** What an operation does besides changing the state. */
  datatype Effect =
    | Repainted                            // visibility and marker geometry rewritten
    | ViewChanged(position: real, size: real)  // a `viewchange` event with its payload

  /**
   * One scrollbar. `drags` holds the anchor (last seen pointer X) of every drag
   * session whose window listeners are still bound; `[]` is the idle state.
   */
  datatype Bar = Bar(cfg: Config, view: View, width: real, visibility: Visibility, drags: seq<real>)

  datatype Outcome = Outcome(bar: Bar, effects: seq<Effect>)

  /** A scrollbar right after `init`: the prototype's zero view and zero width, CSS untouched. */
  function Init(cfg: Config): (b: Bar)
    ensures GetView(b) == View(0.0, 0.0, 0.0) && GetWidth(b) == 0.0
    ensures b.visibility == Unstyled && b.cfg == cfg
    ensures Inv(b)
    ensures b.drags == []
  {
    Bar(cfg, Initial, 0.0, Unstyled, [])
  }

  /**
   * `isScrollable`: the window does not cover the whole range. On a valid view
   * that is the same as there being room to move the window.
   */
  predicate IsScrollable(v: View)
    ensures Valid(v) ==> (IsScrollable(v) <==> 0.0 < v.total - v.size)
  {
    v.size != v.total
  }

  /**
   * What every reachable scrollbar satisfies: its view is valid, the CSS is
   * untouched only while the view is still the initial one, and once styled the
   * bar is visible exactly when it is scrollable.
   */
  predicate Inv(b: Bar) {
    && Valid(b.view)
    && (b.visibility == Unstyled ==> b.view == Initial)
    && (b.visibility != Unstyled ==> (b.visibility == Visible <==> IsScrollable(b.view)))
  }

  /**
   * The effects of a call that ends in `setView(..., force)` from view `before`:
   * none when nothing is forced and the view is unchanged; otherwise a repaint,
   * followed by one `viewchange` carrying the new position and size exactly
   * when the view changed.
   */
  predicate Reports(before: View, r: Outcome, force: bool) {
    && (r.effects == [] <==> !force && r.bar.view == before)
    && (r.effects != [] ==>
          r.effects == [Repainted] + if r.bar.view != before then [ViewChanged(r.bar.view.position, r.bar.view.size)] else [])
  }

  /** The number of `viewchange` events among the effects. */
  function Notifications(effects: seq<Effect>): nat {
    if effects == [] then 0
    else (if effects[0].ViewChanged? then 1 else 0) + Notifications(effects[1..])
  }

  /** `getView`: the committed view, valid and matching the visibility on every reachable bar. */
  function GetView(b: Bar): (v: View)
    ensures Inv(b) ==> Valid(v)
    ensures Inv(b) && b.visibility != Unstyled ==> (b.visibility == Visible <==> IsScrollable(v))
  {
    b.view
  }

  /** `getWidth`: the stored pixel width, which the track is derived from. */
  function GetWidth(b: Bar): (w: real)
    ensures TrackWidth(b) == 0.0 || TrackWidth(b) == w - 2.0 * Offset(b.cfg)
    ensures w - 2.0 * Offset(b.cfg) <= TrackWidth(b)
  {
    b.width
  }

  /** The distance from the bar's edge to the track: one arrow plus a one-unit gap. */
  function Offset(cfg: Config): real {
    cfg.arrowSize + 1.0
  }

  /** `getScrollareaWidth`: the pixel width of the track between the two arrows. */
  function TrackWidth(b: Bar): (r: real)
    ensures 0.0 <= r
    ensures b.width - 2.0 * Offset(b.cfg) <= r
    ensures r == 0.0 || r == b.width - 2.0 * Offset(b.cfg)
  {
    Max(0.0, b.width - 2.0 * Offset(b.cfg))
  }

  /**
   * `pixelToCoord`: the logical length that covers `px` pixels of the track,
   * i.e. the one whose share of `total` is `px`'s share of the track.
   */
  function PixelToCoord(b: Bar, px: real): (r: real)
    requires TrackWidth(b) > 0.0
    ensures r * TrackWidth(b) == px * b.view.total
    ensures b.view.total == 0.0 ==> r == 0.0
  {
    px * (b.view.total / TrackWidth(b))
  }

  /**
   * `coordToPixel`: the pixel length of `coord` logical units on the track,
   * `0` when the range is empty.
   */
  function CoordToPixel(b: Bar, coord: real): (r: real)
    ensures b.view.total == 0.0 ==> r == 0.0
    ensures b.view.total != 0.0 ==> r * b.view.total == coord * TrackWidth(b)
  {
    if b.view.total == 0.0 then 0.0 else (coord / b.view.total) * TrackWidth(b)
  }

  /**
   * `setView(position, size, total, force)`. The normalised triple is always
   * valid; it is committed and repainted unless it equals the current view and
   * no force is given, and `viewchange` is emitted exactly when it differs
   * from the current view.
   */
  function SetView(b: Bar, position: Arg, size: Arg, total: Arg, force: bool): (r: Outcome)
    ensures r.bar.view == Normalize(b.view, position, size, total)
    ensures Reports(b.view, r, force)
    ensures r.effects == [] ==> r.bar == b
    ensures Notifications(r.effects) == (if r.bar.view != b.view then 1 else 0)
    ensures r.effects != [] ==> r.bar.visibility == (if IsScrollable(r.bar.view) then Visible else Hidden)
    ensures r.bar.cfg == b.cfg && r.bar.width == b.width && r.bar.drags == b.drags
    ensures Inv(b) ==> Inv(r.bar)
  {
    var v := Normalize(b.view, position, size, total);
    var changed := v != b.view;
    if !force && !changed then
      Outcome(b, [])
    else
      var b' := b.(view := v, visibility := if IsScrollable(v) then Visible else Hidden);
      var effects := [Repainted] + if changed then [ViewChanged(v.position, v.size)] else [];
      assert changed ==> effects[1].ViewChanged?;
      assert Notifications(effects) == Notifications(effects[1..]);
      assert changed ==> Notifications(effects[1..]) == 1 + Notifications(effects[1..][1..]);
      assert if changed then effects[1..][1..] == [] else effects[1..] == [];
      Outcome(b', effects)
  }

  /** The signed step: `steps` towards the right, its negation towards the left. */
  function Signed(dir: Direction, steps: real): real {
    if dir == Left then -steps else steps
  }

  /** The step `move` takes: the given one, or a page (`size - 1`) when omitted. */
  function Stride(v: View, steps: Arg): real {
    steps.Or(v.size - 1.0)
  }

  /** The unclamped position `move` aims for. */
  function Target(v: View, dir: Direction, steps: Arg): real {
    v.position + Signed(dir, Stride(v, steps))
  }

  /**
   * `move(direction, steps)`: on a valid view it keeps `size` and `total`,
   * lands on the target when the target lies in `[0, total - size]` and on the
   * nearer end of that interval otherwise; it notifies exactly when the
   * position changed and never forces a repaint.
   */
  function Move(b: Bar, dir: Direction, steps: Arg): (r: Outcome)
    ensures Valid(r.bar.view)
    ensures Valid(b.view) ==>
      && r.bar.view.size == b.view.size
      && r.bar.view.total == b.view.total
      && 0.0 <= r.bar.view.position <= b.view.total - b.view.size
    ensures var t := Target(b.view, dir, steps);
      Valid(b.view) ==>
        && (0.0 <= t <= b.view.total - b.view.size ==> r.bar.view.position == t)
        && (t < 0.0 ==> r.bar.view.position == 0.0)
        && (b.view.total - b.view.size < t ==> r.bar.view.position == b.view.total - b.view.size)
    ensures r.effects == [] <==> r.bar.view == b.view
    ensures r.effects == [] ==> r.bar == b
    ensures Reports(b.view, r, false)
    ensures Notifications(r.effects) == (if r.bar.view != b.view then 1 else 0)
    ensures r.bar.cfg == b.cfg && r.bar.width == b.width && r.bar.drags == b.drags
    ensures Inv(b) ==> Inv(r.bar)
  {
    SetView(b, Given(Clamp(Target(b.view, dir, steps), 0.0, b.view.total - b.view.size)), Omitted, Omitted, false)
  }

  /**
   * `setWidth(width, force)`: a no-op when the width is unchanged and no force
   * is given; otherwise it stores the width and repaints through a forced
   * `setView()` that, on a valid view, keeps the triple and emits no
   * `viewchange`.
   */
  function SetWidth(b: Bar, width: Arg, force: bool): (r: Outcome)
    ensures !force && width.Or(b.width) == b.width ==> r == Outcome(b, [])
    ensures force || width.Or(b.width) != b.width ==>
      && r.bar.width == width.Or(b.width)
      && r.effects != [] && r.effects[0] == Repainted
      && r.bar.visibility == (if IsScrollable(r.bar.view) then Visible else Hidden)
    ensures Valid(b.view) ==> r.bar.view == b.view && Notifications(r.effects) == 0
    ensures r.bar.cfg == b.cfg && r.bar.drags == b.drags
    ensures Inv(b) ==> Inv(r.bar)
  {
    var w := width.Or(b.width);
    if !force && b.width == w then
      Outcome(b, [])
    else
      SetView(b.(width := w), Omitted, Omitted, Omitted, true)
  }
}

=== FILE: sessions.dfy ===
/**
 * A scrollbar's life as a sequence of host calls and pointer events, and the
 * invariant every such sequence keeps.
 */
module Sessions {
  import opened Views
  import opened Scrollbar
  import opened Gestures

  /** One host call or one user event delivered to the scrollbar. */
  datatype Input =
    | CallSetView(position: Arg, size: Arg, total: Arg, force: bool)
    | CallMove(dir: Direction, steps: Arg)
    | CallSetWidth(width: Arg, force: bool)
    | ArrowClicked(dir: Direction)
    | TrackClicked(offsetX: real)
    | MarkerPressed(pageX: real)
    | PointerMoved(pageX: real)
    | PointerReleased

  /**
   * The input's pixel conversion (if any) has a non-zero track to divide by;
   * otherwise the source computes a non-finite number, which is not modelled.
   */
  predicate Defined(b: Bar, input: Input) {
    match input
    case TrackClicked(_) => TrackWidth(b) > 0.0
    case PointerMoved(x) => TrackWidth(b) > 0.0 || forall i :: 0 <= i < |b.drags| ==> b.drags[i] == x
    case _ => true
  }

  function Step(b: Bar, input: Input): (r: Outcome)
    requires Defined(b, input)
    ensures Inv(b) ==> Inv(r.bar)
    ensures r.bar.cfg == b.cfg
  {
    match input
    case CallSetView(p, s, t, f) => SetView(b, p, s, t, f)
    case CallMove(d, n) => Move(b, d, n)
    case CallSetWidth(w, f) => SetWidth(b, w, f)
    case ArrowClicked(d) => ArrowClick(b, d)
    case TrackClicked(x) => TrackClick(b, x)
    case MarkerPressed(x) => Outcome(MouseDown(b, x), [])
    case PointerMoved(x) => MouseMove(b, x)
    case PointerReleased => Outcome(MouseUp(b), [])
  }

  /** What running a sequence of inputs gives. */
  datatype Ran =
    | Done(out: Outcome)  // every input was run
    | Undefined           // an input divided by a zero track width, which is not modelled

  /** Runs the inputs in order; `Undefined` once an input is reached that is not `Defined`. */
  function Run(b: Bar, inputs: seq<Input>): Ran
    decreases |inputs|
  {
    if inputs == [] then
      Done(Outcome(b, []))
    else if !Defined(b, inputs[0]) then
      Undefined
    else
      var first := Step(b, inputs[0]);
      match Run(first.bar, inputs[1..])
      case Undefined => Undefined
      case Done(rest) => Done(Outcome(rest.bar, first.effects + rest.effects))
  }

  /**
   * Whatever the host and the user do, the view stays a valid window inside
   * the range and the visibility keeps tracking `isScrollable`.
   */
  lemma {:induction false} RunKeepsInv(b: Bar, inputs: seq<Input>)
    requires Inv(b)
    ensures Run(b, inputs).Done? ==> Inv(Run(b, inputs).out.bar)
    decreases |inputs|
  {
    if inputs != [] && Defined(b, inputs[0]) {
      RunKeepsInv(Step(b, inputs[0]).bar, inputs[1..]);
    }
  }

  /** Every scrollbar reachable from `init` keeps the invariant. */
  lemma Reachable(cfg: Config, inputs: seq<Input>)
    ensures Run(Init(cfg), inputs).Done? ==> Inv(Run(Init(cfg), inputs).out.bar)
  {
    RunKeepsInv(Init(cfg), inputs);
  }

  /**
   * Listeners do not outlive the gesture: after a release, whatever came
   * before, no drag session is bound.
   */
  lemma {:induction false} ReleaseEndsAllSessions(b: Bar, inputs: seq<Input>)
    ensures Run(b, inputs + [PointerReleased]).Done? ==> Idle(Run(b, inputs + [PointerReleased]).out.bar)
    decreases |inputs|
  {
    if inputs == [] {
      assert [] + [PointerReleased] == [PointerReleased];
    } else {
      assert (inputs + [PointerReleased])[0] == inputs[0];
      assert (inputs + [PointerReleased])[1..] == inputs[1..] + [PointerReleased];
      if Defined(b, inputs[0]) {
        ReleaseEndsAllSessions(Step(b, inputs[0]).bar, inputs[1..]);
      }
    }
  }
}

=== FILE: views.dfy ===
/**
 * The view triple `(position, size, total)` of the horizontal scrollbar and the
 * normalisation `setView` applies to every requested triple
 * (src/net/meisen/ui/gantt/svg/HorizontalScrollbar.js:150-166).
 */
module Views {

  /**
   * A numeric argument of the scrollbar's API: `Omitted` when the caller passes
   * `undefined` or `null`, which every operation replaces by a fallback value.
   */
  datatype Arg = Omitted | Given(value: real) {

    /** The argument's value, or `fallback` when it was omitted. */
    function Or(fallback: real): (r: real)
      ensures Given? ==> r == value
      ensures Omitted? ==> r == fallback
    {
      if Given? then value else fallback
    }
  }

  /** The visible window `position .. position + size` inside `0 .. total`, in logical coordinates. */
  datatype View = View(position: real, size: real, total: real)

  /** The view a fresh scrollbar starts with (the prototype's `view`). */
  const Initial := View(0.0, 0.0, 0.0)

  /** What every committed view satisfies: the window lies inside the range. */
  predicate Valid(v: View) {
    && 0.0 <= v.position
    && 0.0 <= v.size <= v.total
    && v.position + v.size <= v.total
  }

  /** `Math.max` on two numbers. */
  function Max(a: real, b: real): real {
    if a < b then b else a
  }

  /** `Math.min` on two numbers. */
  function Min(a: real, b: real): real {
    if b < a then b else a
  }

  /** `Math.max(lo, x)` followed by `Math.min(_, hi)`: the order `move` clamps in. */
  function Clamp(x: real, lo: real, hi: real): (r: real)
    ensures r <= hi
    ensures lo <= hi ==> lo <= r
    ensures lo <= x <= hi ==> r == x
    ensures x < lo && lo <= hi ==> r == lo
    ensures hi < x ==> r == hi
  {
    Min(Max(lo, x), hi)
  }

  /**
   * The triple `setView` commits for a request: omitted values default to the
   * current view, every value is floored at 0, `size` is capped at `total` and
   * `position` is pulled back so that the window ends inside the range.
   */
  function Normalize(current: View, position: Arg, size: Arg, total: Arg): (r: View)
    ensures Valid(r)
    ensures var t := total.Or(current.total);
      && (0.0 <= t ==> r.total == t)
      && (t < 0.0 ==> r.total == 0.0)
    ensures var s := size.Or(current.size);
      && (0.0 <= s <= r.total ==> r.size == s)
      && (s < 0.0 ==> r.size == 0.0)
      && (r.total < s ==> r.size == r.total)
    ensures var p := position.Or(current.position);
      && (0.0 <= p <= r.total - r.size ==> r.position == p)
      && (p < 0.0 ==> r.position == 0.0)
      && (r.total - r.size < p ==> r.position == r.total - r.size)
  {
    var t := Max(0.0, total.Or(current.total));
    var p := Max(0.0, position.Or(current.position));
    var s0 := Max(0.0, size.Or(current.size));
    var s := if s0 > t then t else s0;
    var p' := if p + s > t then t - s else p;
    View(p', s, t)
  }

  /** A request that is already a valid triple is committed unchanged. */
  lemma NormalizeKeepsValid(current: View, v: View)
    requires Valid(v)
    ensures Normalize(current, Given(v.position), Given(v.size), Given(v.total)) == v
  {
  }

  /** Re-normalising the committed triple changes nothing. */
  lemma NormalizeIdempotent(current: View, position: Arg, size: Arg, total: Arg)
    ensures var v := Normalize(current, position, size, total);
      Normalize(v, Omitted, Omitted, Omitted) == v
  {
  }
}
